=== FILE: README.md ===
# quartz-wm geometry layer in Dafny

This project models the geometry primitives of the quartz-wm window manager:
the point, size and rectangle value types of `src/x11-geometry.h`, their
constructors, accessors, equality and containment tests, the `X11EmptyRect`
sentinel, and `X11RectIntersection` from `src/x11-geometry.c`.

Modules:

- `CInt` (`cint.dfy`): the 32-bit signed and unsigned ranges and the two
  conversions C applies between them (modulo 2^32 into `uint32_t`; two's
  complement into `int32_t`).
- `Geometry` (`geometry.dfy`): `Point`, `Size` and `Rect`, the constructors
  and accessors, the equality tests, closed containment, `EmptyRect` and
  `RectIsEmpty`. A `Rect` is pixman's 32-bit rectangle: signed origin,
  unsigned width and height. Fields are mathematical integers, and
  `ValidRect`, `ValidPoint` and `ValidSize` state their C ranges. `Fits(r)`
  says the far corner `x + width`, `y + height` is itself a signed 32-bit
  coordinate.
- `GeometryLemmas` (`geometry_lemmas.dfy`): round trips, the equality tests
  as equivalences, containment on and off the edges, the meaning of
  `RectIsEmpty`, and the finding about the containment test.
- `Intersection` (`intersection.dfy`): `RectIntersection` step by step, as
  the C function computes it. Rectangles become pixman boxes (`RectToBox`),
  the boxes meet (`Meet`), and the box becomes a rectangle or the sentinel
  (`BoxToRect`). The far corners are computed with 32-bit wrap-around.
- `IntersectionLemmas` (`intersection_lemmas.dfy`): a reference definition
  of intersection (`IsOverlapOf`, from unbounded edges), a proof that the
  code computes it for rectangles that fit, and its consequences:
  - commutativity, idempotence and associativity;
  - in the overlap branch, the result holds exactly the common points;
  - edge-touching rectangles meet in a degenerate line that is not empty;
  - a one-pixel gap gives the sentinel.

Two design points come out of the proofs.

- `EmptyRect` is `{0, 0, 0, 0}`. That is also the genuine one-point
  intersection at the origin, so for rectangles that fit, `RectIsEmpty` of a
  result means "the inputs share no point other than (0, 0)"
  (`IsEmptyIntersectionIff`). Two squares meeting only at the origin share
  that point (`SentinelInputsShareOrigin`) and are reported empty
  (`SentinelIsRealOverlap`).
- The sentinel branch returns a rectangle that contains (0, 0), a point that
  need not lie in either input (`EmptyBranchOriginInNeither`).

`pixman.h` is not part of this model. The field widths of
`pixman_rectangle32_t` (signed 32-bit `x`, `y`; unsigned 32-bit `width`,
`height`) and `pixman_box32_t` (four signed 32-bit corners) are pixman's
published declarations.

## Model

| member | source | states |
|---|---|---|
| `CInt.ToUInt32` | src/x11-geometry.h:42-43 | storing a signed value in an unsigned field gives the value in the unsigned range congruent to it modulo 2^32 |
| `CInt.ToInt32` | src/x11-geometry.h:65-67 | passing an unsigned value to a signed parameter gives a signed 32-bit value that is the same or lower by 2^32 |
| `Geometry.RectMake` | src/x11-geometry.h:38-45 | the result is a valid rectangle with the given origin; a non-negative width or height is stored as is, and a negative one as its value plus 2^32 |
| `Geometry.PointMake` | src/x11-geometry.h:47-52 | the point has exactly the given coordinates |
| `Geometry.SizeMake` | src/x11-geometry.h:54-59 | the size has exactly the given width and height |
| `Geometry.RectOrigin` | src/x11-geometry.h:61-63 | the origin is the rectangle's top-left corner |
| `Geometry.RectSize` | src/x11-geometry.h:65-67 | the size reads back the width and height, except that a dimension above INT32_MAX comes back negative |
| `GeometryLemmas.MakeThenParts` | src/x11-geometry.h:38-67 | for every signed argument, the origin and size of a made rectangle are the point and size it was made from, negative widths included |
| `GeometryLemmas.PartsThenMake` | src/x11-geometry.h:38-67 | making a rectangle from another's origin and size gives the same rectangle |
| `Geometry.PointEqualToPoint` | src/x11-geometry.h:69-71 | the test holds exactly when the two points are the same value |
| `Geometry.SizeEqualToSize` | src/x11-geometry.h:73-75 | the test holds exactly when the two sizes are the same value |
| `Geometry.RectEqualToRect` | src/x11-geometry.h:77-80 | the test holds exactly when the two rectangles are the same value |
| `GeometryLemmas.EqualityTestsAreEquivalences` | src/x11-geometry.h:69-80 | each of the three equality tests is reflexive, symmetric and transitive |
| `Geometry.RectContainsPoint` | src/x11-geometry.h:82-85 | the corrected containment test: a signed, closed comparison of the point with both edges on each axis; its properties are the lemmas below |
| `Geometry.RectContainsPointAsWritten` | src/x11-geometry.h:82-85 | containment as compiled, with unsigned right-hand comparisons; for a rectangle with a non-negative origin and far edges below 2^32 it agrees with the corrected test |
| `GeometryLemmas.ContainsCorners` | src/x11-geometry.h:82-85 | for the corrected test `RectContainsPoint`, containment is closed: all four corners, far edges included, are inside |
| `GeometryLemmas.OutsideEdgesNotContained` | src/x11-geometry.h:82-85 | for the corrected test `RectContainsPoint`, a point left, right, above or below the rectangle is not contained |
| `GeometryLemmas.ContainsItsOrigin` | src/x11-geometry.h:82-85 | for the corrected test `RectContainsPoint`, every rectangle contains its origin, so one of zero width or height is a line or a point and not the empty region |
| `GeometryLemmas.ContainsPointAsWrittenMisclassifies` | src/x11-geometry.h:82-85 | the test as compiled accepts a point outside a rectangle left of x = 0, rejects a point inside a rectangle straddling x = 0, and rejects a point inside a rectangle whose right edge reaches 2^32 |
| `GeometryLemmas.ContainsPointAsWrittenAgreesOffNegative` | src/x11-geometry.h:82-85 | for a rectangle with a non-negative origin and far edges below 2^32 the compiled test and the intended test agree on every point |
| `Geometry.RectIsEmpty` | src/x11-geometry.h:87-89 | a rectangle is empty exactly when it equals the sentinel `EmptyRect` |
| `GeometryLemmas.IsEmptyOnlyAtZero` | src/x11-geometry.h:87-89 | a rectangle is empty exactly when it is {0, 0, 0, 0}; a zero-size rectangle anywhere else is not empty |
| `GeometryLemmas.EmptyIsOriginPoint` | src/x11-geometry.c:34 | for every rectangle, being empty is the same as holding exactly the one point (0, 0) |
| `Intersection.RectToBox` | src/x11-geometry.c:39-47 | a box's near corner is the rectangle's origin and its far corner is a valid signed coordinate, equal to the true far edge when the rectangle fits |
| `Intersection.Meet` | src/x11-geometry.c:49-52 | each near edge of the met box is the larger of the two near edges and each far edge the smaller of the two far edges |
| `Intersection.BoxToRect` | src/x11-geometry.c:54-58 | a box whose near corner does not pass its far corner becomes the rectangle with those four edges; any other box becomes the sentinel |
| `Intersection.RectIntersection` | src/x11-geometry.c:36-59 | for any valid inputs the result fits, and it is the sentinel or starts at or beyond both inputs' origins |
| `IntersectionLemmas.IntersectionOfFitting` | src/x11-geometry.c:36-59 | for rectangles that fit, the result is the sentinel when the closed rectangles fail to overlap on an axis, and otherwise has the larger near edges and the smaller far edges |
| `IntersectionLemmas.OverlapIffSharedPoint` | src/x11-geometry.c:54 | the overlap condition holds exactly when the two closed rectangles share a point |
| `IntersectionLemmas.IntersectionIsCommonRegion` | src/x11-geometry.c:54-55 | in the overlap branch a point is in the result exactly when it is in both inputs |
| `IntersectionLemmas.DisjointIntersection` | src/x11-geometry.c:54-58 | rectangles that do not overlap give the sentinel |
| `IntersectionLemmas.DisjointResultHasOrigin` | src/x11-geometry.c:56-57 | in the sentinel branch the result contains (0, 0) |
| `IntersectionLemmas.EmptyBranchOriginInNeither` | src/x11-geometry.c:56-57 | two disjoint rectangles away from the origin yield a result containing (0, 0), which neither input contains |
| `IntersectionLemmas.IntersectionCommutes` | src/x11-geometry.c:49-52 | swapping the arguments gives the same result, for all valid inputs |
| `IntersectionLemmas.IntersectionWithEnclosing` | src/x11-geometry.c:36-59 | intersecting a rectangle with one that encloses it gives the rectangle back |
| `IntersectionLemmas.IntersectionIdempotent` | src/x11-geometry.c:36-59 | a rectangle that fits intersected with itself is itself |
| `IntersectionLemmas.IdempotenceNeedsFit` | src/x11-geometry.c:41-42 | a one-pixel rectangle at x = INT32_MAX has a wrapped far edge, so its intersection with itself is the sentinel |
| `IntersectionLemmas.EmptyAbsorbs` | src/x11-geometry.c:34-59 | intersecting the sentinel with any valid rectangle, on either side, gives the sentinel |
| `IntersectionLemmas.IsEmptyIntersectionIff` | src/x11-geometry.c:54-58 | the result is reported empty exactly when every point the inputs share is (0, 0) |
| `IntersectionLemmas.IntersectionAssociative` | src/x11-geometry.c:36-59 | for rectangles that fit, both groupings of a three-way intersection give the same rectangle |
| `IntersectionLemmas.PointIntersectionIfContained` | src/x11-geometry.c:36-59 | when a point is contained, or is the origin, intersecting with the zero-size rectangle at it gives that rectangle back |
| `IntersectionLemmas.ContainedIfPointIntersection` | src/x11-geometry.c:36-59 | when intersecting with the zero-size rectangle at a point gives that rectangle back, the point is contained or is the origin |
| `IntersectionLemmas.ContainsIffPointIntersection` | src/x11-geometry.c:36-59 | intersecting with the zero-size rectangle at a point gives that rectangle back exactly when the point is contained or is the origin |
| `IntersectionLemmas.TouchingEdgeIntersection` | src/x11-geometry.c:54-55 | when one rectangle's right edge is the other's left edge and their vertical spans meet, the result is the zero-width shared edge segment, not empty unless it lies on x = 0 |
| `IntersectionLemmas.SideBySideIntersection` | src/x11-geometry.c:54-55 | two rectangles of the same top and height side by side meet in their whole shared edge |
| `IntersectionLemmas.EdgeTouchingIntersection` | src/x11-geometry.c:54-55 | {0,0,10,10} and {10,0,10,10} intersect in {10,0,0,10} |
| `IntersectionLemmas.EdgeTouchingNotEmpty` | src/x11-geometry.c:54-55 | that degenerate intersection is not reported empty |
| `IntersectionLemmas.GapIntersection` | src/x11-geometry.c:54-57 | {0,0,10,10} and {11,0,10,10} intersect in the sentinel {0,0,0,0} |
| `IntersectionLemmas.OriginCornerIntersection` | src/x11-geometry.c:54-57 | rectangles touching only at the corner (0, 0) overlap, yet the result is the sentinel |
| `IntersectionLemmas.SentinelInputsShareOrigin` | src/x11-geometry.c:54 | {-5,-5,5,5} and {0,0,5,5} both contain the point (0, 0), so they overlap |
| `IntersectionLemmas.SentinelIsRealOverlap` | src/x11-geometry.c:34 | the intersection of {-5,-5,5,5} and {0,0,5,5} equals the sentinel, although the two share a point |

## Left out

- The rest of the window manager (windows, frames, screens, the dock, lists, selections, the main header) is outside the geometry layer.
- `X11EmptyRect` is a mutable global in C; it is modelled as the constant `EmptyRect` because no code in the geometry layer assigns to it.
- `X11Region` (`pixman_region32_t`) is only a type alias here; region operations belong to pixman and are not modelled.
- The subtractions `f.x2 - f.x1` and `f.y2 - f.y1` can overflow a signed 32-bit value, which C leaves undefined; the model wraps them, and `X11RectMake` then stores the true difference.
- Conversion of an out-of-range value to `int32_t` is implementation-defined in C; the model keeps the low 32 bits.
- CInt.ToUInt32: defined only for values from -2^32 up to 2^33, because the code only ever converts a sum or difference of one signed and one unsigned 32-bit value.
- CInt.ToInt32: defined only for values from INT32_MIN up to 2^32 + INT32_MAX, because the code only ever converts an unsigned 32-bit value (a field, or the unsigned sum `x + width`) or the difference `x2 - x1` of two signed values with `x1 <= x2`, which lies between 0 and 2^32.
- Intersection.RectIntersection: its own contract does not give the geometric meaning of the result; that is stated by `IntersectionOfFitting` for rectangles whose far edges are at most INT32_MAX, which every on-screen window satisfies. For other rectangles `IdempotenceNeedsFit` shows how the wrapped far edge changes the answer.
- IntersectionLemmas.IntersectionOfFitting: requires both inputs to fit, for the reason above; the same holds for the intersection lemmas built on it.
- IntersectionLemmas.EdgeTouchingIntersection: states the four fields of the result one by one, which together say the result equals {10, 0, 0, 10}.

## Findings

| source | as written | input that shows it | evidently intended | confidence | as-written member | corrected member |
|---|---|---|---|---|---|---|
| src/x11-geometry.h:82-85 | `p.x <= r.x + r.width` adds an `int32_t` to a `uint32_t`, so the sum is unsigned, `p.x` is converted to unsigned and the comparison is unsigned (likewise for y) | r = {-10, 0, 5, 5}, p = (0, 0) is reported inside; r = {-10, -10, 20, 20}, p = (-5, -5) is reported outside; r = {10, 0, 0xffffffff, 0}, p = (100, 0) is reported outside | a signed, closed comparison with the far edge `x + width` | not executed | `Geometry.RectContainsPointAsWritten` | `Geometry.RectContainsPoint` |

The test as written is `Geometry.RectContainsPointAsWritten`;
`GeometryLemmas.ContainsPointAsWrittenMisclassifies` exhibits the three
inputs above. The corrected
test `Geometry.RectContainsPoint` is the one the rest of the model uses.
`GeometryLemmas.ContainsCorners` and `GeometryLemmas.OutsideEdgesNotContained`
prove it is closed on every side and excludes everything beyond the edges.
`GeometryLemmas.ContainsPointAsWrittenAgreesOffNegative` shows the two tests
differ only for rectangles with a negative origin coordinate or with a far
edge at or beyond 2^32.

=== FILE: cint.dfy ===
/** Fixed-width C integers and the conversions between them.

    The geometry code mixes `int32_t` coordinates with the `uint32_t` width
    and height of pixman's rectangle, so the model needs the two ranges and
    the two conversions a C compiler applies when a value leaves its range:
    - to `uint32_t`, the value is reduced modulo 2^32 (section 6.3.1.3 of the
      C11 standard);
    - to `int32_t`, the result is implementation-defined; the compilers the
      program is built with keep the low 32 bits (two's complement), and so
      does the model.
    Values are mathematical integers; the ranges are stated as predicates.
    Both conversions are defined only over the values the geometry code
    converts, where each is a single shift by 2^32: into `uint32_t`, a signed
    32-bit value or the sum of a signed and an unsigned one; into `int32_t`,
    an unsigned 32-bit value or the difference `x2 - x1` of two signed
    values with `x1 <= x2`.
 */
module CInt {

  const TWO_32: int := 0x1_0000_0000
  const INT32_MIN: int := -0x8000_0000
  const INT32_MAX: int := 0x7fff_ffff
  const UINT32_MAX: int := 0xffff_ffff

  predicate InInt32(v: int) {
    INT32_MIN <= v <= INT32_MAX
  }

  predicate InUInt32(v: int) {
    0 <= v <= UINT32_MAX
  }

  /** Conversion to `uint32_t`: the value in range congruent to `v`. */
  function ToUInt32(v: int): (r: int)
    requires -TWO_32 <= v < 2 * TWO_32
    ensures InUInt32(r)
    ensures r == v || r == v + TWO_32 || r == v - TWO_32
  {
    if v < 0 then v + TWO_32
    else if v < TWO_32 then v
    else v - TWO_32
  }

  /** Conversion to `int32_t`, keeping the low 32 bits. */
  function ToInt32(v: int): (r: int)
    requires INT32_MIN <= v < TWO_32 + INT32_MAX
    ensures InInt32(r)
    ensures r == v || r == v - TWO_32
  {
    if v <= INT32_MAX then v else v - TWO_32
  }

  /** Storing a signed value in an unsigned field and reading it back as
      signed gives the original value. */
  lemma SignedThroughUnsigned(w: int)
    requires InInt32(w)
    ensures ToInt32(ToUInt32(w)) == w
  {
  }

  /** Storing an unsigned value in a signed variable and converting it back
      gives the original value. */
  lemma UnsignedThroughSigned(u: int)
    requires InUInt32(u)
    ensures ToUInt32(ToInt32(u)) == u
  {
  }
}

=== FILE: geometry.dfy ===
/** The value types of the window manager's geometry layer: points, sizes
    and rectangles in X11 root-window coordinates, with their constructors,
    accessors and tests.

    A rectangle is pixman's 32-bit rectangle: signed 32-bit origin, unsigned
    32-bit width and height. Points and sizes have signed 32-bit fields.
    Fields are mathematical integers; `ValidRect`, `ValidPoint` and
    `ValidSize` state the ranges the C types give them.
 */
module Geometry {
  import opened CInt

  datatype Point = Point(x: int, y: int)
  datatype Size = Size(width: int, height: int)
  datatype Rect = Rect(x: int, y: int, width: int, height: int)

  predicate ValidPoint(p: Point) {
    InInt32(p.x) && InInt32(p.y)
  }

  predicate ValidSize(s: Size) {
    InInt32(s.width) && InInt32(s.height)
  }

  predicate ValidRect(r: Rect) {
    InInt32(r.x) && InInt32(r.y) && InUInt32(r.width) && InUInt32(r.height)
  }

  /** The canonical "no intersection" rectangle. It is the same value as the
      real zero-size rectangle at the origin. */
  const EmptyRect: Rect := Rect(0, 0, 0, 0)

  /** Right-hand edge `x + width`, as a mathematical integer. */
  function FarX(r: Rect): int {
    r.x + r.width
  }

  /** Bottom edge `y + height`, as a mathematical integer. */
  function FarY(r: Rect): int {
    r.y + r.height
  }

  /** The far corner of `r` is itself a valid 32-bit coordinate. Every
      rectangle a window can occupy satisfies this. */
  predicate Fits(r: Rect) {
    ValidRect(r) && FarX(r) <= INT32_MAX && FarY(r) <= INT32_MAX
  }

  /** Build a rectangle from four signed values. The width and height
      parameters are signed while the fields are unsigned, so a negative
      argument is stored modulo 2^32. */
  function RectMake(x: int, y: int, w: int, h: int): (r: Rect)
    requires InInt32(x) && InInt32(y) && InInt32(w) && InInt32(h)
    ensures ValidRect(r)
    ensures r.x == x && r.y == y
    ensures w >= 0 ==> r.width == w
    ensures h >= 0 ==> r.height == h
    ensures w < 0 ==> r.width == w + TWO_32
    ensures h < 0 ==> r.height == h + TWO_32
  {
    Rect(x, y, ToUInt32(w), ToUInt32(h))
  }

  function PointMake(x: int, y: int): (p: Point)
    requires InInt32(x) && InInt32(y)
    ensures ValidPoint(p)
    ensures p.x == x && p.y == y
  {
    Point(x, y)
  }

  function SizeMake(width: int, height: int): (s: Size)
    requires InInt32(width) && InInt32(height)
    ensures ValidSize(s)
    ensures s.width == width && s.height == height
  {
    Size(width, height)
  }

  /** The top-left corner of `r`. */
  function RectOrigin(r: Rect): (p: Point)
    requires ValidRect(r)
    ensures ValidPoint(p)
    ensures p.x == r.x && p.y == r.y
  {
    PointMake(r.x, r.y)
  }

  /** The size of `r`. The unsigned fields are passed to signed parameters,
      so a dimension above INT32_MAX reads back negative. */
  function RectSize(r: Rect): (s: Size)
    requires ValidRect(r)
    ensures ValidSize(s)
    ensures r.width <= INT32_MAX ==> s.width == r.width
    ensures r.height <= INT32_MAX ==> s.height == r.height
    ensures r.width > INT32_MAX ==> s.width == r.width - TWO_32
    ensures r.height > INT32_MAX ==> s.height == r.height - TWO_32
  {
    SizeMake(ToInt32(r.width), ToInt32(r.height))
  }

  predicate PointEqualToPoint(a: Point, b: Point)
    ensures PointEqualToPoint(a, b) <==> a == b
  {
    a.x == b.x && a.y == b.y
  }

  predicate SizeEqualToSize(a: Size, b: Size)
    ensures SizeEqualToSize(a, b) <==> a == b
  {
    a.width == b.width && a.height == b.height
  }

  predicate RectEqualToRect(a: Rect, b: Rect)
    ensures RectEqualToRect(a, b) <==> a == b
  {
    a.x == b.x && a.y == b.y && a.width == b.width && a.height == b.height
  }

  /** Closed containment: `p` lies in `r` or on one of its four edges.
      This is the test the program means; the test it actually performs is
      `RectContainsPointAsWritten`. */
  predicate RectContainsPoint(r: Rect, p: Point) {
    r.x <= p.x && p.x <= FarX(r) &&
    r.y <= p.y && p.y <= FarY(r)
  }

  /** Containment exactly as the C expression evaluates it. The left
      comparisons are between two `int32_t` values. In the right ones,
      `r.x + r.width` adds an `int32_t` to a `uint32_t`, so the sum is
      reduced modulo 2^32 and `p.x` is converted to `uint32_t` before the
      comparison. */
  predicate RectContainsPointAsWritten(r: Rect, p: Point)
    requires ValidRect(r) && ValidPoint(p)
    ensures r.x >= 0 && r.y >= 0 && FarX(r) < TWO_32 && FarY(r) < TWO_32 ==>
              (RectContainsPointAsWritten(r, p) <==> RectContainsPoint(r, p))
  {
    r.x <= p.x && ToUInt32(p.x) <= ToUInt32(FarX(r)) &&
    r.y <= p.y && ToUInt32(p.y) <= ToUInt32(FarY(r))
  }

  /** A rectangle counts as empty only when it is, field for field, the
      sentinel `EmptyRect`. */
  predicate RectIsEmpty(r: Rect)
    ensures RectIsEmpty(r) <==> r == EmptyRect
  {
    RectEqualToRect(r, EmptyRect)
  }
}

=== FILE: geometry_lemmas.dfy ===
/** Properties of the geometry value types: constructor/accessor round trips,
    the equality tests as equivalences, closed containment, the meaning of
    `RectIsEmpty`, and how the containment test as written departs from the
    intended one.
 */
module GeometryLemmas {
  import opened CInt
  import opened Geometry


  /** The origin and size read back from a freshly made rectangle are the
      point and size it was made from, for every signed argument: the
      conversion of a negative width into the unsigned field is undone by
      `RectSize`. */
  lemma MakeThenParts(x: int, y: int, w: int, h: int)
    requires InInt32(x) && InInt32(y) && InInt32(w) && InInt32(h)
    ensures RectOrigin(RectMake(x, y, w, h)) == PointMake(x, y)
    ensures RectSize(RectMake(x, y, w, h)) == SizeMake(w, h)
  {
    SignedThroughUnsigned(w);
    SignedThroughUnsigned(h);
  }

  /** Rebuilding a rectangle from its origin and size gives it back. */
  lemma PartsThenMake(r: Rect)
    requires ValidRect(r)
    ensures RectMake(RectOrigin(r).x, RectOrigin(r).y,
                     RectSize(r).width, RectSize(r).height) == r
  {
    UnsignedThroughSigned(r.width);
    UnsignedThroughSigned(r.height);
  }

  ghost predicate Equivalence<T(!new)>(relation: (T, T) -> bool) {
    && (forall a :: relation(a, a))
    && (forall a, b :: relation(a, b) ==> relation(b, a))
    && (forall a, b, c :: relation(a, b) && relation(b, c) ==> relation(a, c))
  }

  /** The three equality tests are equivalence relations. */
  lemma EqualityTestsAreEquivalences()
    ensures Equivalence(PointEqualToPoint)
    ensures Equivalence(SizeEqualToSize)
    ensures Equivalence(RectEqualToRect)
  {
  }

  /** Containment is closed on every side: all four corners of a rectangle
      are inside it. */
  lemma ContainsCorners(r: Rect)
    requires Fits(r)
    ensures RectContainsPoint(r, Point(r.x, r.y))
    ensures RectContainsPoint(r, Point(FarX(r), r.y))
    ensures RectContainsPoint(r, Point(r.x, FarY(r)))
    ensures RectContainsPoint(r, Point(FarX(r), FarY(r)))
  {
  }

  /** A point beyond any of the four edges is outside. */
  lemma OutsideEdgesNotContained(r: Rect, p: Point)
    requires p.x < r.x || p.x > FarX(r) || p.y < r.y || p.y > FarY(r)
    ensures !RectContainsPoint(r, p)
  {
  }

  /** Every rectangle contains its origin, one of zero width or height
      included: a degenerate rectangle is a line or a point, never the empty
      region. */
  lemma ContainsItsOrigin(r: Rect)
    requires ValidRect(r)
    ensures RectContainsPoint(r, RectOrigin(r))
  {
  }

  /** `RectIsEmpty` holds of exactly one value, the all-zero rectangle; a
      zero-size rectangle anywhere else is not empty. */
  lemma IsEmptyOnlyAtZero(r: Rect)
    ensures RectIsEmpty(r) <==> r == Rect(0, 0, 0, 0)
    ensures r.width == 0 && r.height == 0 && (r.x != 0 || r.y != 0) ==> !RectIsEmpty(r)
  {
  }

  /** The points of a rectangle are the single point at the origin exactly
      when the rectangle is the sentinel: the "empty" rectangle is the
      one-point region {(0, 0)}, not the empty region. */
  lemma EmptyIsOriginPoint(r: Rect)
    ensures RectIsEmpty(r) <==>
              (forall p :: RectContainsPoint(r, p) <==> p == Point(0, 0))
  {
    if !RectIsEmpty(r) && (forall p :: RectContainsPoint(r, p) <==> p == Point(0, 0)) {
      assert RectContainsPoint(r, Point(0, 0));
      assert RectContainsPoint(r, Point(r.x, r.y));
      if r.width > 0 {
        var q := Point(r.x + 1, r.y);
        assert RectContainsPoint(r, q);
        assert false;
      } else if r.height > 0 {
        var q := Point(r.x, r.y + 1);
        assert RectContainsPoint(r, q);
        assert false;
      }
    }
  }

  /** The containment test as written accepts a point to the right of a
      rectangle that ends left of x = 0, rejects a point inside a rectangle
      that straddles x = 0, and rejects a point inside a rectangle whose
      right edge reaches 2^32, where the unsigned sum wraps. */
  lemma ContainsPointAsWrittenMisclassifies()
    ensures RectContainsPointAsWritten(Rect(-10, 0, 5, 5), Point(0, 0))
    ensures !RectContainsPoint(Rect(-10, 0, 5, 5), Point(0, 0))
    ensures !RectContainsPointAsWritten(Rect(-10, -10, 20, 20), Point(-5, -5))
    ensures RectContainsPoint(Rect(-10, -10, 20, 20), Point(-5, -5))
    ensures !RectContainsPointAsWritten(Rect(10, 0, 0xffff_ffff, 0), Point(100, 0))
    ensures RectContainsPoint(Rect(10, 0, 0xffff_ffff, 0), Point(100, 0))
  {
  }

  /** For a rectangle whose origin has no negative coordinate and whose far
      edges stay below 2^32 the test as written agrees with the intended
      one, whatever the point. */
  lemma ContainsPointAsWrittenAgreesOffNegative(r: Rect, p: Point)
    requires ValidRect(r) && ValidPoint(p)
    requires r.x >= 0 && r.y >= 0
    requires FarX(r) < TWO_32 && FarY(r) < TWO_32
    ensures RectContainsPointAsWritten(r, p) <==> RectContainsPoint(r, p)
  {
  }
}

=== FILE: intersection.dfy ===
/** Rectangle intersection as the window manager computes it: both
    rectangles become pixman boxes (corner coordinates), the overlap box is
    the larger near corner and the smaller far corner, and a box whose near
    corner passes its far corner on either axis is reported as `EmptyRect`.

    The far corners are computed in 32 bits. The model keeps that wrap; the
    lemmas that give the result its geometric meaning assume `Fits`.
 */
module Intersection {
  import opened CInt
  import opened Geometry

  /** pixman's 32-bit box: near corner (x1, y1), far corner (x2, y2), all
      signed 32-bit. */
  datatype Box = Box(x1: int, y1: int, x2: int, y2: int)

  predicate ValidBox(f: Box) {
    InInt32(f.x1) && InInt32(f.y1) && InInt32(f.x2) && InInt32(f.y2)
  }

  function Max(a: int, b: int): (m: int)
    ensures m >= a && m >= b && (m == a || m == b)
  {
    if a > b then a else b
  }

  function Min(a: int, b: int): (m: int)
    ensures m <= a && m <= b && (m == a || m == b)
  {
    if a < b then a else b
  }

  /** The corners of `r`. The far corner is the unsigned sum `x + width`
      stored into a signed field; it is the true edge when `r` fits. */
  function RectToBox(r: Rect): (b: Box)
    requires ValidRect(r)
    ensures ValidBox(b)
    ensures b.x1 == r.x && b.y1 == r.y
    ensures Fits(r) ==> b.x2 == FarX(r) && b.y2 == FarY(r)
  {
    Box(r.x, r.y, ToInt32(ToUInt32(FarX(r))), ToInt32(ToUInt32(FarY(r))))
  }

  /** The overlap box: the larger near corner and the smaller far corner. */
  function Meet(ba: Box, bb: Box): (f: Box)
    ensures ValidBox(ba) && ValidBox(bb) ==> ValidBox(f)
    ensures f.x1 >= ba.x1 && f.x1 >= bb.x1 && f.y1 >= ba.y1 && f.y1 >= bb.y1
    ensures f.x2 <= ba.x2 && f.x2 <= bb.x2 && f.y2 <= ba.y2 && f.y2 <= bb.y2
    ensures f.x1 == ba.x1 || f.x1 == bb.x1
    ensures f.y1 == ba.y1 || f.y1 == bb.y1
    ensures f.x2 == ba.x2 || f.x2 == bb.x2
    ensures f.y2 == ba.y2 || f.y2 == bb.y2
  {
    Box(Max(ba.x1, bb.x1), Max(ba.y1, bb.y1), Min(ba.x2, bb.x2), Min(ba.y2, bb.y2))
  }

  /** A box whose near corner does not pass its far corner becomes the
      rectangle it spans; any other box becomes the sentinel. The signed
      differences `x2 - x1` and `y2 - y1` may leave the signed range, and
      the model wraps them; the unsigned fields of the result then hold
      the true differences. */
  function BoxToRect(f: Box): (r: Rect)
    requires ValidBox(f)
    ensures Fits(r)
    ensures f.x1 <= f.x2 && f.y1 <= f.y2 ==>
              r.x == f.x1 && r.y == f.y1 && FarX(r) == f.x2 && FarY(r) == f.y2
    ensures !(f.x1 <= f.x2 && f.y1 <= f.y2) ==> r == EmptyRect
  {
    if f.x1 <= f.x2 && f.y1 <= f.y2 then
      UnsignedThroughSigned(f.x2 - f.x1);
      UnsignedThroughSigned(f.y2 - f.y1);
      RectMake(f.x1, f.y1, ToInt32(f.x2 - f.x1), ToInt32(f.y2 - f.y1))
    else
      EmptyRect
  }

  /** The intersection of `a` and `b`. Whatever the inputs, the result is
      either the sentinel or a rectangle whose origin lies at or beyond both
      inputs' origins, and its far corner is always a valid coordinate. */
  function RectIntersection(a: Rect, b: Rect): (r: Rect)
    requires ValidRect(a) && ValidRect(b)
    ensures Fits(r)
    ensures r == EmptyRect || (r.x >= a.x && r.x >= b.x && r.y >= a.y && r.y >= b.y)
  {
    BoxToRect(Meet(RectToBox(a), RectToBox(b)))
  }
}

=== FILE: intersection_lemmas.dfy ===
/** What `RectIntersection` means: for rectangles that fit, the result is the
    overlap box when the two closed rectangles share a point and the sentinel
    otherwise; the operation commutes, is idempotent and associative; the
    boundary policy counts edge-touching rectangles as intersecting; and the
    sentinel is ambiguous with the genuine one-point overlap at the origin.

    The reference definition is `IsOverlapOf`, stated with unbounded edges.
    `IntersectionOfFitting` connects it to the code; the other lemmas reason
    about the reference and carry the result over.
 */
module IntersectionLemmas {
  import opened Geometry
  import opened Intersection
  import opened GeometryLemmas

  /** Near edge of the overlap on the x axis. */
  function LoX(a: Rect, b: Rect): int {
    if a.x > b.x then a.x else b.x
  }

  /** Near edge of the overlap on the y axis. */
  function LoY(a: Rect, b: Rect): int {
    if a.y > b.y then a.y else b.y
  }

  /** Far edge of the overlap on the x axis, without any wrap. */
  function HiX(a: Rect, b: Rect): int {
    if FarX(a) < FarX(b) then FarX(a) else FarX(b)
  }

  /** Far edge of the overlap on the y axis, without any wrap. */
  function HiY(a: Rect, b: Rect): int {
    if FarY(a) < FarY(b) then FarY(a) else FarY(b)
  }

  /** The closed intervals of `a` and `b` overlap on both axes: each starts
      no later than the other ends. */
  predicate Overlap(a: Rect, b: Rect) {
    a.x <= FarX(b) && b.x <= FarX(a) && a.y <= FarY(b) && b.y <= FarY(a)
  }

  /** On each axis the intervals overlap exactly when the overlap's near
      edge does not pass its far edge. */
  lemma OverlapEdges(a: Rect, b: Rect)
    requires ValidRect(a) && ValidRect(b)
    ensures (a.x <= FarX(b) && b.x <= FarX(a)) <==> LoX(a, b) <= HiX(a, b)
    ensures (a.y <= FarY(b) && b.y <= FarY(a)) <==> LoY(a, b) <= HiY(a, b)
  {
  }

  /** Reference meaning of an intersection result: the sentinel when the
      rectangles do not overlap, otherwise the rectangle whose edges are the
      overlap's edges. */
  predicate IsOverlapOf(r: Rect, a: Rect, b: Rect) {
    if Overlap(a, b) then
      && r.x == LoX(a, b) && r.y == LoY(a, b)
      && FarX(r) == HiX(a, b) && FarY(r) == HiY(a, b)
    else
      r == EmptyRect
  }

  /** `inner` lies inside `outer`, edges included. */
  predicate Encloses(outer: Rect, inner: Rect) {
    outer.x <= inner.x && FarX(inner) <= FarX(outer) &&
    outer.y <= inner.y && FarY(inner) <= FarY(outer)
  }

  /** Two rectangles with the same four edges are the same rectangle. */
  lemma SameEdges(r: Rect, s: Rect)
    requires r.x == s.x && r.y == s.y && FarX(r) == FarX(s) && FarY(r) == FarY(s)
    ensures r == s
  {
  }

  /** The corner boxes of rectangles that fit meet in the box spanned by the
      overlap's edges. */
  lemma MeetOfFitting(a: Rect, b: Rect)
    requires Fits(a) && Fits(b)
    ensures Meet(RectToBox(a), RectToBox(b)).x1 == LoX(a, b)
    ensures Meet(RectToBox(a), RectToBox(b)).y1 == LoY(a, b)
    ensures Meet(RectToBox(a), RectToBox(b)).x2 == HiX(a, b)
    ensures Meet(RectToBox(a), RectToBox(b)).y2 == HiY(a, b)
  {
  }

  /** A rectangle made from the box spanned by the overlap's edges is the
      reference result. */
  lemma OverlapBoxMeaning(r: Rect, a: Rect, b: Rect, f: Box)
    requires ValidRect(a) && ValidRect(b)
    requires f.x1 == LoX(a, b) && f.y1 == LoY(a, b) && f.x2 == HiX(a, b) && f.y2 == HiY(a, b)
    requires f.x1 <= f.x2 && f.y1 <= f.y2 ==>
               r.x == f.x1 && r.y == f.y1 && FarX(r) == f.x2 && FarY(r) == f.y2
    requires !(f.x1 <= f.x2 && f.y1 <= f.y2) ==> r == EmptyRect
    ensures IsOverlapOf(r, a, b)
  {
    OverlapEdges(a, b);
  }

  /** For rectangles that fit, the code computes the reference result: the
      sentinel when the intervals fail to overlap on either axis, and
      otherwise the box from the larger near edges to the smaller far
      edges. */
  lemma IntersectionOfFitting(a: Rect, b: Rect)
    requires Fits(a) && Fits(b)
    ensures IsOverlapOf(RectIntersection(a, b), a, b)
  {
    var f := Meet(RectToBox(a), RectToBox(b));
    MeetOfFitting(a, b);
    OverlapBoxMeaning(BoxToRect(f), a, b, f);
  }

  /** The order of the arguments does not matter, for any rectangles. */
  lemma IntersectionCommutes(a: Rect, b: Rect)
    requires ValidRect(a) && ValidRect(b)
    ensures RectIntersection(a, b) == RectIntersection(b, a)
  {
    assert Meet(RectToBox(a), RectToBox(b)) == Meet(RectToBox(b), RectToBox(a));
  }

  /** The overlap of a rectangle with one that encloses it has the
      rectangle's own edges. */
  lemma OverlapWithEnclosing(r: Rect, a: Rect, b: Rect)
    requires ValidRect(a) && Encloses(b, a) && IsOverlapOf(r, a, b)
    ensures r.x == a.x && r.y == a.y && FarX(r) == FarX(a) && FarY(r) == FarY(a)
  {
    assert Overlap(a, b);
  }

  /** Intersecting a rectangle with one that encloses it gives it back. */
  lemma IntersectionWithEnclosing(a: Rect, b: Rect)
    requires Fits(a) && Fits(b)
    requires Encloses(b, a)
    ensures RectIntersection(a, b) == a
  {
    IntersectionOfFitting(a, b);
    OverlapWithEnclosing(RectIntersection(a, b), a, b);
    SameEdges(RectIntersection(a, b), a);
  }

  /** A rectangle that fits intersected with itself is itself. */
  lemma IntersectionIdempotent(a: Rect)
    requires Fits(a)
    ensures RectIntersection(a, a) == a
  {
    IntersectionWithEnclosing(a, a);
  }

  /** Without `Fits` the far corner wraps: a one-pixel rectangle at
      x = INT32_MAX has its right edge at INT32_MIN, so it does not even
      intersect itself. */
  lemma IdempotenceNeedsFit()
    ensures !Fits(Rect(0x7fff_ffff, 0, 1, 1))
    ensures RectIntersection(Rect(0x7fff_ffff, 0, 1, 1), Rect(0x7fff_ffff, 0, 1, 1)) == EmptyRect
  {
    var a := Rect(0x7fff_ffff, 0, 1, 1);
    assert RectToBox(a) == Box(0x7fff_ffff, 0, -0x8000_0000, 1);
    assert Meet(RectToBox(a), RectToBox(a)) == RectToBox(a);
  }

  /** A rectangle with the overlap's edges holds exactly the common points. */
  lemma OverlapRegion(r: Rect, a: Rect, b: Rect, p: Point)
    requires Overlap(a, b) && IsOverlapOf(r, a, b)
    ensures RectContainsPoint(r, p) <==> RectContainsPoint(a, p) && RectContainsPoint(b, p)
  {
  }

  /** When the rectangles overlap, a point is in the result exactly when it
      is in both inputs. */
  lemma IntersectionIsCommonRegion(a: Rect, b: Rect, p: Point)
    requires Fits(a) && Fits(b)
    requires Overlap(a, b)
    ensures RectContainsPoint(RectIntersection(a, b), p) <==>
              RectContainsPoint(a, p) && RectContainsPoint(b, p)
  {
    IntersectionOfFitting(a, b);
    OverlapRegion(RectIntersection(a, b), a, b, p);
  }

  /** The overlap test of the code is exactly "the closed rectangles share a
      point". */
  lemma OverlapIffSharedPoint(a: Rect, b: Rect)
    requires Fits(a) && Fits(b)
    ensures Overlap(a, b) <==> exists p :: RectContainsPoint(a, p) && RectContainsPoint(b, p)
  {
    if Overlap(a, b) {
      var q := Point(LoX(a, b), LoY(a, b));
      assert RectContainsPoint(a, q) && RectContainsPoint(b, q);
    } else if exists p :: RectContainsPoint(a, p) && RectContainsPoint(b, p) {
      var p :| RectContainsPoint(a, p) && RectContainsPoint(b, p);
      SharedPointOverlap(a, b, p);
    }
  }

  /** Any rectangle that is the overlap of the sentinel with another is the
      sentinel: an overlap with {(0, 0)} can only be that point. */
  lemma OverlapWithEmpty(r: Rect, c: Rect)
    requires IsOverlapOf(r, EmptyRect, c) || IsOverlapOf(r, c, EmptyRect)
    ensures r == EmptyRect
  {
    assert EmptyRect == Rect(0, 0, 0, 0);
    if Overlap(EmptyRect, c) || Overlap(c, EmptyRect) {
      SameEdges(r, EmptyRect);
    }
  }

  /** A corner box meeting the box of the sentinel keeps at most the
      origin. */
  lemma MeetWithOriginBox(z: Box, g: Box)
    requires z.x1 == 0 && z.y1 == 0 && z.x2 == 0 && z.y2 == 0
    ensures Meet(z, g).x1 <= Meet(z, g).x2 && Meet(z, g).y1 <= Meet(z, g).y2 ==>
              Meet(z, g).x1 == 0 && Meet(z, g).y1 == 0 && Meet(z, g).x2 == 0 && Meet(z, g).y2 == 0
  {
  }

  /** The sentinel absorbs: intersecting it with any rectangle, even one
      that does not fit, yields it. */
  lemma EmptyAbsorbs(c: Rect)
    requires ValidRect(c)
    ensures RectIntersection(EmptyRect, c) == EmptyRect
    ensures RectIntersection(c, EmptyRect) == EmptyRect
  {
    var z := RectToBox(EmptyRect);
    assert z.x1 == 0 && z.y1 == 0 && z.x2 == 0 && z.y2 == 0;
    MeetWithOriginBox(z, RectToBox(c));
    var r := BoxToRect(Meet(z, RectToBox(c)));
    assert r.x == 0 && r.y == 0 && r.width == 0 && r.height == 0;
    IntersectionCommutes(c, EmptyRect);
  }

  /** The result is reported empty exactly when the only point the inputs
      can share is the origin: non-overlapping rectangles and rectangles
      meeting only at (0, 0) give the same answer. */
  lemma IsEmptyIntersectionIff(a: Rect, b: Rect)
    requires Fits(a) && Fits(b)
    ensures RectIsEmpty(RectIntersection(a, b)) <==>
              (forall p :: RectContainsPoint(a, p) && RectContainsPoint(b, p) ==> p == Point(0, 0))
  {
    var r := RectIntersection(a, b);
    IntersectionOfFitting(a, b);
    OverlapIffSharedPoint(a, b);
    assert EmptyRect == Rect(0, 0, 0, 0);

    if Overlap(a, b) {
      EmptyIsOriginPoint(r);
      forall p
        ensures RectContainsPoint(r, p) <==> RectContainsPoint(a, p) && RectContainsPoint(b, p)
      {
        OverlapRegion(r, a, b, p);
      }
      assert RectContainsPoint(r, RectOrigin(r));
    }
  }

  /** A zero-size rectangle on a point of `r` intersects `r` in itself. */
  lemma PointRectInside(r: Rect, q: Rect)
    requires Fits(r) && ValidRect(q) && q.width == 0 && q.height == 0
    requires r.x <= q.x <= FarX(r) && r.y <= q.y <= FarY(r)
    ensures RectIntersection(r, q) == q
  {
    IntersectionOfFitting(r, q);
    SameEdges(RectIntersection(r, q), q);
  }

  /** A zero-size rectangle on a point outside `r` intersects `r` in the
      sentinel. */
  lemma PointRectOutside(r: Rect, q: Rect)
    requires Fits(r) && ValidRect(q) && q.width == 0 && q.height == 0
    requires !(r.x <= q.x <= FarX(r) && r.y <= q.y <= FarY(r))
    ensures RectIntersection(r, q) == EmptyRect
  {
    IntersectionOfFitting(r, q);
  }

  /** When `p` is inside `r`, or is the origin, intersecting `r` with the
      zero-size rectangle at `p` gives that rectangle back. */
  lemma PointIntersectionIfContained(r: Rect, p: Point)
    requires Fits(r) && ValidPoint(p)
    requires RectContainsPoint(r, p) || (p.x == 0 && p.y == 0)
    ensures RectIntersection(r, RectMake(p.x, p.y, 0, 0)) == RectMake(p.x, p.y, 0, 0)
  {
    var q := RectMake(p.x, p.y, 0, 0);
    if RectContainsPoint(r, p) {
      PointRectInside(r, q);
    } else {
      PointRectOutside(r, q);
      SameEdges(q, EmptyRect);
    }
  }

  /** When intersecting `r` with the zero-size rectangle at `p` gives that
      rectangle back, `p` is inside `r` or is the origin. */
  lemma ContainedIfPointIntersection(r: Rect, p: Point)
    requires Fits(r) && ValidPoint(p)
    requires RectIntersection(r, RectMake(p.x, p.y, 0, 0)) == RectMake(p.x, p.y, 0, 0)
    ensures RectContainsPoint(r, p) || (p.x == 0 && p.y == 0)
  {
    var q := RectMake(p.x, p.y, 0, 0);
    if !RectContainsPoint(r, p) {
      PointRectOutside(r, q);
    }
  }

  /** A point is contained in a rectangle exactly when intersecting the
      rectangle with the zero-size rectangle at the point gives that
      zero-size rectangle back, except at the origin, where the sentinel
      makes the answer "yes" whether or not the point is inside. */
  lemma ContainsIffPointIntersection(r: Rect, p: Point)
    requires Fits(r) && ValidPoint(p)
    ensures RectIntersection(r, RectMake(p.x, p.y, 0, 0)) == RectMake(p.x, p.y, 0, 0)
            <==> RectContainsPoint(r, p) || (p.x == 0 && p.y == 0)
  {
    if RectContainsPoint(r, p) || (p.x == 0 && p.y == 0) {
      PointIntersectionIfContained(r, p);
    }
    if RectIntersection(r, RectMake(p.x, p.y, 0, 0)) == RectMake(p.x, p.y, 0, 0) {
      ContainedIfPointIntersection(r, p);
    }
  }

  /** A genuine overlap lies inside both rectangles. */
  lemma OverlapEnclosed(r: Rect, a: Rect, b: Rect)
    requires ValidRect(a) && ValidRect(b)
    requires Overlap(a, b) && IsOverlapOf(r, a, b)
    ensures Encloses(a, r) && Encloses(b, r)
  {
  }

  /** Overlapping a rectangle means overlapping every rectangle that
      encloses it. */
  lemma OverlapGrows(x: Rect, inner: Rect, outer: Rect)
    requires Encloses(outer, inner)
    requires Overlap(x, inner) || Overlap(inner, x)
    ensures Overlap(x, outer) && Overlap(outer, x)
  {
  }

  /** When `a` meets `b` and `b` meets `c`, the overlap of `a` and `b` meets
      `c` exactly when `a` meets the overlap of `b` and `c`, and then the
      two overlaps have the same edges. */
  lemma ThreeWayOverlap(a: Rect, b: Rect, c: Rect, ab: Rect, bc: Rect)
    requires ValidRect(a) && ValidRect(b) && ValidRect(c)
    requires Overlap(a, b) && IsOverlapOf(ab, a, b)
    requires Overlap(b, c) && IsOverlapOf(bc, b, c)
    ensures Overlap(ab, c) <==> Overlap(a, bc)
    ensures LoX(ab, c) == LoX(a, bc) && HiX(ab, c) == HiX(a, bc)
    ensures LoY(ab, c) == LoY(a, bc) && HiY(ab, c) == HiY(a, bc)
  {
  }

  /** The reference result is associative. */
  lemma OverlapAssociative(a: Rect, b: Rect, c: Rect, ab: Rect, bc: Rect, left: Rect, right: Rect)
    requires ValidRect(a) && ValidRect(b) && ValidRect(c)
    requires IsOverlapOf(ab, a, b) && IsOverlapOf(bc, b, c)
    requires IsOverlapOf(left, ab, c) && IsOverlapOf(right, a, bc)
    ensures left == right
  {
    if !Overlap(a, b) {
      OverlapWithEmpty(left, c);
      if !Overlap(b, c) {
        OverlapWithEmpty(right, a);
      } else {
        OverlapEnclosed(bc, b, c);
        if Overlap(a, bc) {
          OverlapGrows(a, bc, b);
          assert false;
        }
      }
    } else if !Overlap(b, c) {
      OverlapWithEmpty(right, a);
      OverlapEnclosed(ab, a, b);
      if Overlap(ab, c) {
        OverlapGrows(c, ab, b);
        assert false;
      }
    } else {
      ThreeWayOverlap(a, b, c, ab, bc);
      if Overlap(ab, c) {
        SameEdges(left, right);
      }
    }
  }

  /** For rectangles that fit, intersection is associative; the sentinel
      makes the two groupings agree even when some pair is disjoint. */
  lemma IntersectionAssociative(a: Rect, b: Rect, c: Rect)
    requires Fits(a) && Fits(b) && Fits(c)
    ensures RectIntersection(RectIntersection(a, b), c) ==
            RectIntersection(a, RectIntersection(b, c))
  {
    var ab := RectIntersection(a, b);
    var bc := RectIntersection(b, c);
    IntersectionOfFitting(a, b);
    IntersectionOfFitting(b, c);
    IntersectionOfFitting(ab, c);
    IntersectionOfFitting(a, bc);
    OverlapAssociative(a, b, c, ab, bc, RectIntersection(ab, c), RectIntersection(a, bc));
  }

  /** Rectangles that do not overlap intersect in the sentinel. */
  lemma DisjointIntersection(a: Rect, b: Rect)
    requires Fits(a) && Fits(b)
    requires !Overlap(a, b)
    ensures RectIntersection(a, b) == EmptyRect
  {
    IntersectionOfFitting(a, b);
  }

  /** When the right edge of `a` is the left edge of `b` and their vertical
      spans meet, the intersection is the zero-width piece of that shared
      edge, and it is not reported empty unless it lies on x = 0. */
  lemma TouchingEdgeIntersection(a: Rect, b: Rect)
    requires Fits(a) && Fits(b)
    requires FarX(a) == b.x && a.y <= FarY(b) && b.y <= FarY(a)
    ensures RectIntersection(a, b).x == b.x && RectIntersection(a, b).width == 0
    ensures RectIntersection(a, b).y == LoY(a, b) && FarY(RectIntersection(a, b)) == HiY(a, b)
    ensures b.x != 0 ==> !RectIsEmpty(RectIntersection(a, b))
  {
    IntersectionOfFitting(a, b);
    assert Overlap(a, b);
  }

  /** Two rectangles of the same height side by side meet in their whole
      shared edge. */
  lemma SideBySideIntersection(a: Rect, b: Rect)
    requires Fits(a) && Fits(b)
    requires FarX(a) == b.x && a.y == b.y && a.height == b.height
    ensures RectIntersection(a, b).x == b.x && RectIntersection(a, b).width == 0
    ensures RectIntersection(a, b).y == b.y && RectIntersection(a, b).height == b.height
  {
    TouchingEdgeIntersection(a, b);
    SameVerticalSpan(RectIntersection(a, b), a, b);
  }

  /** A rectangle spanning the vertical overlap of two rectangles with the
      same top and height has that top and height. */
  lemma SameVerticalSpan(r: Rect, a: Rect, b: Rect)
    requires a.y == b.y && a.height == b.height
    requires r.y == LoY(a, b) && FarY(r) == HiY(a, b)
    ensures r.y == b.y && r.height == b.height
  {
  }

  /** A rectangle with all-zero fields is the sentinel. */
  lemma ZeroIsSentinel(r: Rect)
    requires r.x == 0 && r.y == 0 && r.width == 0 && r.height == 0
    ensures r == EmptyRect
  {
  }

  /** The sentinel has all-zero fields and contains the origin. */
  lemma SentinelFields(r: Rect)
    requires r == EmptyRect
    ensures r.x == 0 && r.y == 0 && r.width == 0 && r.height == 0
    ensures RectContainsPoint(r, Point(0, 0))
  {
  }

  /** Rectangles sharing a point overlap. */
  lemma SharedPointOverlap(a: Rect, b: Rect, p: Point)
    requires RectContainsPoint(a, p) && RectContainsPoint(b, p)
    ensures Overlap(a, b)
  {
  }

  /** The overlap of a rectangle ending at (0, 0) with one starting there
      is the single point (0, 0). */
  lemma OriginCornerOverlap(r: Rect, a: Rect, b: Rect)
    requires ValidRect(a) && ValidRect(b)
    requires FarX(a) == 0 && FarY(a) == 0 && b.x == 0 && b.y == 0
    requires IsOverlapOf(r, a, b)
    ensures Overlap(a, b)
    ensures r.x == 0 && r.y == 0 && r.width == 0 && r.height == 0
  {
  }

  /** Two rectangles that fit and touch only at the corner (0, 0) share
      that point, and their intersection is the sentinel. */
  lemma OriginCornerIntersection(a: Rect, b: Rect)
    requires Fits(a) && Fits(b)
    requires FarX(a) == 0 && FarY(a) == 0 && b.x == 0 && b.y == 0
    ensures Overlap(a, b)
    ensures RectIntersection(a, b) == EmptyRect
  {
    IntersectionOfFitting(a, b);
    OriginCornerOverlap(RectIntersection(a, b), a, b);
    ZeroIsSentinel(RectIntersection(a, b));
  }

  /** When the intersection takes the sentinel branch, its result contains
      the origin, a point the two inputs do not share (see
      `SharedPointOverlap`). */
  lemma DisjointResultHasOrigin(a: Rect, b: Rect)
    requires Fits(a) && Fits(b)
    requires !Overlap(a, b)
    ensures RectContainsPoint(RectIntersection(a, b), Point(0, 0))
  {
    DisjointIntersection(a, b);
    SentinelFields(RectIntersection(a, b));
  }

  /** Edge-touching rectangles intersect in the degenerate line they
      share. */
  lemma EdgeTouchingIntersection()
    ensures RectIntersection(Rect(0, 0, 10, 10), Rect(10, 0, 10, 10)).x == 10
    ensures RectIntersection(Rect(0, 0, 10, 10), Rect(10, 0, 10, 10)).y == 0
    ensures RectIntersection(Rect(0, 0, 10, 10), Rect(10, 0, 10, 10)).width == 0
    ensures RectIntersection(Rect(0, 0, 10, 10), Rect(10, 0, 10, 10)).height == 10
  {
    SideBySideIntersection(Rect(0, 0, 10, 10), Rect(10, 0, 10, 10));
  }

  /** That degenerate line is not reported empty. */
  lemma EdgeTouchingNotEmpty()
    ensures !RectIsEmpty(RectIntersection(Rect(0, 0, 10, 10), Rect(10, 0, 10, 10)))
  {
    TouchingEdgeIntersection(Rect(0, 0, 10, 10), Rect(10, 0, 10, 10));
  }

  /** A one-pixel gap gives the sentinel. */
  lemma GapIntersection()
    ensures RectIntersection(Rect(0, 0, 10, 10), Rect(11, 0, 10, 10)) == EmptyRect
  {
    DisjointIntersection(Rect(0, 0, 10, 10), Rect(11, 0, 10, 10));
  }

  /** Two disjoint rectangles away from the origin: the result holds the
      origin, which neither input contains. */
  lemma EmptyBranchOriginInNeither()
    ensures RectContainsPoint(RectIntersection(Rect(5, 5, 1, 1), Rect(20, 20, 1, 1)), Point(0, 0))
    ensures !RectContainsPoint(Rect(5, 5, 1, 1), Point(0, 0))
    ensures !RectContainsPoint(Rect(20, 20, 1, 1), Point(0, 0))
  {
    DisjointResultHasOrigin(Rect(5, 5, 1, 1), Rect(20, 20, 1, 1));
  }

  /** Two squares meeting only at the origin share that point, so they
      overlap. */
  lemma SentinelInputsShareOrigin()
    ensures RectContainsPoint(Rect(-5, -5, 5, 5), Point(0, 0))
    ensures RectContainsPoint(Rect(0, 0, 5, 5), Point(0, 0))
    ensures Overlap(Rect(-5, -5, 5, 5), Rect(0, 0, 5, 5))
  {
    SharedPointOverlap(Rect(-5, -5, 5, 5), Rect(0, 0, 5, 5), Point(0, 0));
  }

  /** Yet their intersection is reported as the sentinel. */
  lemma SentinelIsRealOverlap()
    ensures RectIntersection(Rect(-5, -5, 5, 5), Rect(0, 0, 5, 5)) == EmptyRect
  {
    var a := Rect(-5, -5, 5, 5);
    var b := Rect(0, 0, 5, 5);
    assert Fits(a) && Fits(b);
    OriginCornerIntersection(a, b);
  }
}
